=== FILE: README.md ===
# Kafka message producer: a Dafny model

This project models the producer side of the repository's Kafka pipeline, which has two classes.

- **Message** holds an event: a title, a text and a timestamp. Its title and text setters refuse
  null and blank strings. It loads the Avro schema `message.avsc` once per process and keeps it.
  It writes the record in Avro's binary form (`serialize`) and reads it back (`deserialize`).
- **Producer** holds host, topic and port. Each has a validating setter; the port must be a
  32-bit decimal of at least 1024. `connect` opens a broker client at `host:port`; `send`
  publishes one serialized message on the topic with no key; `disconnect` flushes, then closes.
  `main` reads five system properties, configures a producer and a message, connects, sends,
  and always disconnects.

The project has five main modules:

| module | file | contents |
|---|---|---|
| `JavaText` | `java_text.dfy` | The java.lang behaviour the setters use: `trim().isEmpty()`, `Integer.parseInt`, and Java's rendering of a null string. |
| `Utf8` | `utf8.dfy` | The UTF-8 form Avro gives a `string`, with a strict decoder and its round trip. |
| `AvroBinary` | `avro_binary.dfy` | Zig-zag varints, Avro `string`s, and the three-field record in any field order the schema may declare. |
| `Messages` | `messages.dfy` | The `Message` class, the process-wide schema slot (`SchemaCache`), and the codec. |
| `Producers` | `producer.dfy` | The `Producer` class, `main` (`Run`), and the broker client modelled as a log of the calls made on it. |

Two small modules, `Wrappers` and `Errors`, hold `Option`/`Result`/`Outcome` and the exceptions.

Things outside the program are parameters:

- the current time `now`;
- `Date.toString` (`render`);
- `SimpleDateFormat.parse` (`parse`);
- the outcome of finding and parsing `message.avsc` (`SchemaSource`);
- the system properties.

A Java `null` string is `None`. An exception is a `Failure`/`Fail` carrying an `Error` value. The
broker client (`KafkaProducer`) is a `Handle` value. It holds the bootstrap address and the
sequence of `Sent`/`Flushed`/`Closed` calls. The session's invariant `Disciplined` says two
things: nothing is sent after a close, and every send is flushed before the close.

A reader whose schema declares the three fields in another order than the writer's does not
fail. All three fields are strings, so each value lands in the field the reader expects at that
position (`AvroBinary.MismatchedOrderDecodes`). The model follows the code here.

## Model

Each row names a member, the file and lines of the repository it models, and what its contract states.

| member | source | states |
|---|---|---|
| JavaText.TrimStart | src/main/java/com/martincastroalvarez/hadoop/Message.java:65 | where `trim` starts: every character before it is at most U+0020 and the one at it (if any) is above U+0020 |
| JavaText.TrimEnd | src/main/java/com/martincastroalvarez/hadoop/Message.java:65 | where `trim` ends: every character after it is at most U+0020, the last one kept is above U+0020, and it never passes the start |
| JavaText.Trim | src/main/java/com/martincastroalvarez/hadoop/Message.java:65 | the trimmed string is a slice of `s` with only characters at most U+0020 before and after it, and it is empty or starts and ends with a character above U+0020 |
| JavaText.IsBlank | src/main/java/com/martincastroalvarez/hadoop/Message.java:65 | `s.trim().isEmpty()` holds exactly when no character of `s` is above U+0020 (both directions) |
| JavaText.Show | src/main/java/com/martincastroalvarez/hadoop/Message.java:66 | string concatenation renders a non-null string as itself and null as "null" |
| JavaText.ParseInt | src/main/java/com/martincastroalvarez/hadoop/Producer.java:95 | succeeds exactly on an optional sign followed by at least one decimal digit whose value lies in the 32-bit range, with that value; every other input raises NumberFormatException for that input |
| JavaText.ShowNatDigits | src/main/java/com/martincastroalvarez/hadoop/Producer.java:95 | the decimal rendering of a natural number is a non-empty unsigned digit run whose value is the number |
| JavaText.ParseShowInt | src/main/java/com/martincastroalvarez/hadoop/Producer.java:95 | every 32-bit integer, written in decimal, parses back to itself |
| Utf8.EncodeChar | src/main/java/com/martincastroalvarez/hadoop/Message.java:143 | a character takes one to four bytes, and one byte exactly when it is below U+0080 |
| Utf8.Encode | src/main/java/com/martincastroalvarez/hadoop/Message.java:143 | a string's UTF-8 form has at least one byte per character |
| Utf8.Decode | src/main/java/com/martincastroalvarez/hadoop/Message.java:162 | a decoded string has no more characters than there were bytes |
| Utf8.DecodeChar | src/main/java/com/martincastroalvarez/hadoop/Message.java:162 | a decoded character consumes between one byte and all the bytes there are |
| Utf8.DecodeEncodeChar | src/main/java/com/martincastroalvarez/hadoop/Message.java:143-162 | decoding a character's encoding gives the character back and consumes exactly its bytes, whatever follows |
| Utf8.DecodeAfterEncode | src/main/java/com/martincastroalvarez/hadoop/Message.java:143-162 | decoding a string's encoding followed by more bytes gives the string in front of whatever the rest decodes to, and fails exactly when the rest fails |
| Utf8.RoundTrip | src/main/java/com/martincastroalvarez/hadoop/Message.java:143-162 | decoding the encoding of any string gives the string back |
| Utf8.EncodeDecodedChar | src/main/java/com/martincastroalvarez/hadoop/Message.java:143-162 | the decoder accepts only shortest forms: the bytes it reads for a character are exactly that character's encoding |
| Utf8.EncodeAfterDecode | src/main/java/com/martincastroalvarez/hadoop/Message.java:143-162 | whatever bytes the decoder accepts are the encoding of the string it gives, so decoding and encoding are inverse on well-formed bytes |
| Utf8.EncodedIsWellFormed | src/main/java/com/martincastroalvarez/hadoop/Message.java:147 | the encoding of any string is well-formed UTF-8 |
| Utf8.HighThenLowIsMalformed | src/main/java/com/martincastroalvarez/hadoop/Message.java:147 | bytes opening with a byte at or above 0x80 followed by one below 0x80 are not well-formed UTF-8 |
| Utf8.EncodeAscii | src/main/java/com/martincastroalvarez/hadoop/Message.java:147 | a string below U+0080 encodes to its code points, one byte each |
| AvroBinary.ZigZag | src/main/java/com/martincastroalvarez/hadoop/Message.java:143 | the zig-zag mapping of a long is undone by UnZigZag |
| AvroBinary.Varint | src/main/java/com/martincastroalvarez/hadoop/Message.java:143 | a varint has at least one byte; every byte but the last has the high bit set, the last does not |
| AvroBinary.ReadVarint | src/main/java/com/martincastroalvarez/hadoop/Message.java:162 | reading a varint consumes at least one byte |
| AvroBinary.ReadVarintAfterVarint | src/main/java/com/martincastroalvarez/hadoop/Message.java:143-162 | reading a written varint gives its value back and leaves exactly the bytes after it |
| AvroBinary.EncodeString | src/main/java/com/martincastroalvarez/hadoop/Message.java:143 | an Avro string ends with the UTF-8 bytes of the string, and the varint in front of them reads back as the zig-zag form of their count, leaving exactly those bytes |
| AvroBinary.ReadString | src/main/java/com/martincastroalvarez/hadoop/Message.java:162 | reading a string consumes at least one byte |
| AvroBinary.ReadStringAfterEncode | src/main/java/com/martincastroalvarez/hadoop/Message.java:143-162 | reading a written Avro string gives it back and leaves exactly the bytes after it |
| AvroBinary.ReadValues | src/main/java/com/martincastroalvarez/hadoop/Message.java:162 | reading `n` strings gives `n` strings and leaves no more bytes than it was given |
| AvroBinary.ReadValuesAfterEncode | src/main/java/com/martincastroalvarez/hadoop/Message.java:143-162 | reading back as many strings as were written gives them back and leaves exactly the bytes after them |
| AvroBinary.Put | src/main/java/com/martincastroalvarez/hadoop/Message.java:137-139 | `GenericRecord.put` sets the named field and leaves the other two unchanged |
| AvroBinary.Project | src/main/java/com/martincastroalvarez/hadoop/Message.java:143 | the writer emits one value per schema field, the i-th being the field the schema declares i-th |
| AvroBinary.Assemble | src/main/java/com/martincastroalvarez/hadoop/Message.java:162 | binding values to the schema's fields leaves every field the schema does not name as it was |
| AvroBinary.AssembleGet | src/main/java/com/martincastroalvarez/hadoop/Message.java:162 | a record read field by field holds the i-th value in the field the schema declares i-th |
| AvroBinary.ReadRecord | src/main/java/com/martincastroalvarez/hadoop/Message.java:162 | reading a record leaves no more bytes than it was given |
| AvroBinary.EncodeRecord | src/main/java/com/martincastroalvarez/hadoop/Message.java:137-143 | under a schema declaring the three fields, the bytes written for a record read back, under the same schema, as that record, whatever bytes follow them |
| AvroBinary.MismatchedOrderDecodes | src/main/java/com/martincastroalvarez/hadoop/Message.java:160-162 | under a reader schema with another field order, reading still succeeds and the reader's i-th field holds the writer's i-th field |
| AvroBinary.ShortAsciiEncoding | src/main/java/com/martincastroalvarez/hadoop/Message.java:147 | the Avro form of a short ASCII string is itself the UTF-8 form of a string (its one length byte is ASCII) |
| AvroBinary.LongFieldIsNotUtf8 | src/main/java/com/martincastroalvarez/hadoop/Message.java:147 | if the fields before field k are short ASCII and field k has 64 to 8191 UTF-8 bytes, the record's bytes are not well-formed UTF-8 |
| Messages.Load | src/main/java/com/martincastroalvarez/hadoop/Message.java:114-124 | loading succeeds exactly when the resource parses; a missing resource, a malformed URI and an unreadable file each raise SerializationException with their own message |
| Messages.SchemaCache.constructor | src/main/java/com/martincastroalvarez/hadoop/Message.java:44 | the schema slot starts empty |
| Messages.SchemaCache.GetSchema | src/main/java/com/martincastroalvarez/hadoop/Message.java:111-127 | a loaded schema is returned without looking at the source again; an empty slot is loaded, filled on success and left empty on failure |
| Messages.ParsedTimestamp | src/main/java/com/martincastroalvarez/hadoop/Message.java:95-105 | the text setter's result is the value parsed from the pattern constant when that parse succeeds, and the current timestamp otherwise |
| Messages.DecodeMessage | src/main/java/com/martincastroalvarez/hadoop/Message.java:156-173 | decoding succeeds exactly when a record can be read and its title and text each have a character above U+0020, and then gives that record; an unreadable payload fails with "Failed to deserialize object: " and a blank title or text with "Failed to deserialize Avro message: " |
| Messages.SerializeDeserialize | src/main/java/com/martincastroalvarez/hadoop/Message.java:132-173 | a record whose title and text pass the setters decodes back to itself from its own encoding |
| Messages.BlankFieldFailsDeserialize | src/main/java/com/martincastroalvarez/hadoop/Message.java:164-169 | a well-encoded record with a blank title or text fails with "Failed to deserialize Avro message: " |
| Messages.ThroughString | src/main/java/com/martincastroalvarez/hadoop/Message.java:147 | bytes that went through a Java String and back under a UTF-8 charset are well-formed UTF-8 |
| Messages.StringStepAltersPayload | src/main/java/com/martincastroalvarez/hadoop/Message.java:147-161 | with title and text of 64 to 8191 UTF-8 bytes and a short ASCII timestamp, the String round trip changes the payload, whatever the field order |
| Messages.SixtyFourLettersDoNotSurvive | src/main/java/com/martincastroalvarez/hadoop/Message.java:147-161 | the same for a concrete message: a Date-style timestamp with 64-letter title and text |
| Messages.Message.constructor | src/main/java/com/martincastroalvarez/hadoop/Message.java:46-48 | a new message has empty title and text and the current time |
| Messages.Message.ToString | src/main/java/com/martincastroalvarez/hadoop/Message.java:53-55 | the title between "<Message: " and a closing ">" |
| Messages.Message.SetTitle | src/main/java/com/martincastroalvarez/hadoop/Message.java:63-69 | fails exactly on null or a string with no character above U+0020, with the message text followed by the argument, and keeps the old title; otherwise stores the argument untrimmed |
| Messages.Message.SetText | src/main/java/com/martincastroalvarez/hadoop/Message.java:77-83 | the same rule and message shape for the text |
| Messages.Message.SetTimestamp | src/main/java/com/martincastroalvarez/hadoop/Message.java:91-94 | stores the date |
| Messages.Message.SetTimestampText | src/main/java/com/martincastroalvarez/hadoop/Message.java:95-105 | ignores its argument and stores the parse of the pattern constant, keeping the old value when that parse fails |
| Messages.Message.WireRecord | src/main/java/com/martincastroalvarez/hadoop/Message.java:136-139 | the record binds the rendered timestamp, the text and the title to their own fields |
| Messages.Message.Serialize | src/main/java/com/martincastroalvarez/hadoop/Message.java:132-151 | fails exactly when the schema is not loaded and cannot be loaded, with the load's error; otherwise gives the record's binary form in the schema's field order; a first load puts the source's schema in the slot, and an already loaded schema stays |
| Messages.Message.Deserialize | src/main/java/com/martincastroalvarez/hadoop/Message.java:156-173 | a schema load failure is passed on; otherwise succeeds exactly when DecodeMessage does, with its title and text and the text setter's timestamp, or fails with its error; a first load puts the source's schema in the slot, and an already loaded schema stays |
| Messages.Message.FromRecord | src/main/java/com/martincastroalvarez/hadoop/Message.java:163-169 | a new message takes the record's title and text exactly when neither is blank; otherwise "Failed to deserialize Avro message: " |
| Messages.CodecRoundTrip | src/main/java/com/martincastroalvarez/hadoop/Message.java:132-173 | a message whose title and text passed the setters comes back from serialize and deserialize with the same title and text |
| Producers.Published | src/main/java/com/martincastroalvarez/hadoop/Producer.java:107 | the records handed to the broker client are at most as many as the calls |
| Producers.PublishedAppend | src/main/java/com/martincastroalvarez/hadoop/Producer.java:107 | the records published by two call sequences in turn are those of the first followed by those of the second |
| Producers.SendKeepsDiscipline | src/main/java/com/martincastroalvarez/hadoop/Producer.java:104-109 | a send on an open client keeps the discipline and publishes exactly that one more record |
| Producers.DisconnectKeepsDiscipline | src/main/java/com/martincastroalvarez/hadoop/Producer.java:127-132 | flush then close keeps the discipline, closes the client and publishes nothing |
| Producers.PublishedOneSession | src/main/java/com/martincastroalvarez/hadoop/Producer.java:48-53 | send, flush, close publishes exactly the one record sent |
| Producers.PortCheck | src/main/java/com/martincastroalvarez/hadoop/Producer.java:90-99 | a port passes exactly when it parses as a 32-bit decimal of at least 1024; null or blank gives "Port number cannot be null or empty.", a non-numeral gives NumberFormatException, a number below 1024 gives "The port can not be empty." |
| Producers.NumeralIsNotBlank | src/main/java/com/martincastroalvarez/hadoop/Producer.java:92-95 | a string that parses as an integer is never blank, so the blank check and the parse never overlap |
| Producers.PortOfNumber | src/main/java/com/martincastroalvarez/hadoop/Producer.java:95-96 | a 32-bit integer written in decimal is accepted as a port exactly when it is at least 1024 |
| Producers.PortEightyRefused | src/main/java/com/martincastroalvarez/hadoop/Producer.java:95-96 | "80" parses but is refused with "The port can not be empty." |
| Producers.Producer.State | src/main/java/com/martincastroalvarez/hadoop/Producer.java:27 | no handle before connect; shut exactly when the handle holds a close |
| Producers.Producer.constructor | src/main/java/com/martincastroalvarez/hadoop/Producer.java:24-27 | host, port and topic start empty, with no broker client |
| Producers.Producer.ToString | src/main/java/com/martincastroalvarez/hadoop/Producer.java:32-34 | the host between "<Producer: " and a closing ">" |
| Producers.Producer.SetTopic | src/main/java/com/martincastroalvarez/hadoop/Producer.java:62-68 | fails exactly on null or a string with no character above U+0020, keeping the old topic; otherwise stores the argument |
| Producers.Producer.SetHost | src/main/java/com/martincastroalvarez/hadoop/Producer.java:76-82 | the same rule for the host |
| Producers.Producer.SetPort | src/main/java/com/martincastroalvarez/hadoop/Producer.java:90-99 | the outcome is PortCheck's; on success the string itself is stored, not the parsed number; on failure the port is unchanged |
| Producers.Producer.Connect | src/main/java/com/martincastroalvarez/hadoop/Producer.java:114-122 | a fresh, open client addressed to host, ":" and port, with no calls yet |
| Producers.Producer.Send | src/main/java/com/martincastroalvarez/hadoop/Producer.java:104-109 | serializes first, so a schema failure leaves the client alone; then fails with a null dereference before connect, or with IllegalStateException after a close, or appends one keyless record on the topic carrying the serialized message; the discipline is kept; a first load puts the source's schema in the slot, and an already loaded schema stays |
| Producers.Producer.Disconnect | src/main/java/com/martincastroalvarez/hadoop/Producer.java:127-132 | a null dereference before connect; otherwise appends a flush then a close, so the session is shut and the discipline is kept |
| Producers.SetupOutcome | src/main/java/com/martincastroalvarez/hadoop/Producer.java:41-47 | `main` gets past its setters exactly when the producer setters and the message setters both pass (so only with all five properties present), and a producer setter's failure comes first |
| Producers.SetupProducer | src/main/java/com/martincastroalvarez/hadoop/Producer.java:42-44 | the producer setters pass exactly when host and topic are present and not blank and the port passes PortCheck |
| Producers.SetupMessage | src/main/java/com/martincastroalvarez/hadoop/Producer.java:45-47 | the message setters pass exactly when text and title are both present and not blank |
| Producers.ConfigureProducer | src/main/java/com/martincastroalvarez/hadoop/Producer.java:41-44 | a new producer run through setHost, setTopic and setPort ends with SetupProducer's outcome, and on success holds the three settings, with no client |
| Producers.ConfigureMessage | src/main/java/com/martincastroalvarez/hadoop/Producer.java:45-47 | a new message run through setText and setTitle ends with SetupMessage's outcome, and on success holds both and the current time |
| Producers.Publish | src/main/java/com/martincastroalvarez/hadoop/Producer.java:48-53 | connect, send, and disconnect in any case: the client is addressed to host:port and shut; it holds the message's record, a flush and a close, or only a flush and a close; it fails exactly when the schema slot is empty and the schema cannot be loaded; a first load puts the source's schema in the slot, and an already loaded schema stays |
| Producers.Run | src/main/java/com/martincastroalvarez/hadoop/Producer.java:39-54 | a setter failure ends `main` with that failure and no client; otherwise the client is addressed to host:port and holds the one record then flush and close, or only flush and close with the schema's load error, which happens exactly when the slot is empty and the schema cannot be loaded; when the setters pass, a first load puts the source's schema in the slot, and an already loaded schema stays |
| Producers.ScenarioSettingsAccepted | src/main/java/com/martincastroalvarez/hadoop/Producer.java:42-44 | host "broker1", topic "events" and port "9092" pass the producer setters |
| Producers.AcceptedRun | src/main/java/com/martincastroalvarez/hadoop/Producer.java:39-54 | a run whose settings pass the setters, with a schema that loads, ends shut at host:port, having published exactly one keyless record on the topic, which reads back as the message's record |
| Producers.BrokerScenario | src/main/java/com/martincastroalvarez/hadoop/Producer.java:39-54 | a run against broker1:9092 with an acceptable title and text ends shut, having published exactly one keyless record on "events" that reads back as the message |

## Left out

- Logging (`log.info`, `System.err`) and `BasicConfigurator` have no effect on the modelled state and are left out.
- `System.getProperty` is not modelled. `Run` takes the five property values as arguments.
- The broker client's own behaviour is not modelled: its networking, batching, retries, serializers and any failure it raises. The client is reduced to the log of calls made on it. Two assumptions about it are made. A send after `close` is refused (IllegalStateException in the Kafka client). `flush` delivers every earlier send.
- Producers.Producer.Connect: a client already held is dropped without a close. The model overwrites the handle, but the leaked client is not tracked.
- Java's `Date`, `Date.toString` and `SimpleDateFormat.parse` are parameters. The parse of the pattern text by its own pattern is one of those parameters, so whether `setTimestamp(String)` changes the timestamp is left open.
- The Avro library is reduced to the encoding of one all-string record. Schemas that miss a field are not modelled.
- AvroBinary.ReadVarint: a length varint is read as an unbounded natural number. Avro reads it as a 32-bit `int` of at most 5 bytes and drops the bits past 32, so the length varint 82 80 80 80 10 reads as length 1 in the source, while the model reads 2^32 + 2 and the read fails.
- AvroBinary.ReadString: a negative length fails the model's read, which Messages.DecodeMessage reports as "Failed to deserialize object: ". In the source Avro raises an unchecked AvroRuntimeException, which escapes `deserialize` without becoming a SerializationException.
- Messages.Message.Serialize: the `IOException` handler, which reports "Failed to serialize object: ", is not modelled. Writing to an in-memory stream never raises it.
- Messages.Message.Deserialize: the SerializationException messages are the fixed prefixes only. The payload text the source appends is not included, because the model carries the payload as bytes rather than as a Java String.
- Utf8.DecodeChar: the decoder is strict and fails on malformed input. Java's decoder replaces malformed input with U+FFFD instead. The replacement behaviour appears only through the `toText` parameter of Messages.ThroughString.
- AvroBinary.ReadString: a string field whose bytes are not well-formed UTF-8 makes the read fail. Avro reads such bytes as a `Utf8` value and `toString` replaces the bad bytes with U+FFFD, so `deserialize` succeeds on them. For example, under the order timestamp, text, title, the payload 02 41 02 C3 82 01 followed by 65 bytes 41 is itself well-formed UTF-8, so it survives a UTF-8 `getBytes`. Its text field is the lone byte C3, so the source gives text "\uFFFD" and a title of 65 letters A. The model's Messages.DecodeMessage and Messages.Message.Deserialize refuse it.
- Messages.Load: a `message.avsc` that is found but does not parse is not modelled. `Schema.Parser().parse` then raises SchemaParseException, an unchecked exception that none of the handlers catches, so it escapes `getSchema`, `serialize` and `deserialize`. Nor is a `message.avsc` packaged inside a jar, the usual way `main` is run: `new File(url.toURI())` then raises IllegalArgumentException (the URI is not hierarchical), which also escapes those three methods. `SourceIsMessageSchema` assumes the bundled schema is a readable file that parses.
- Messages.Message.SetTimestamp: a null `Date` is not modelled. The source stores it, and the next `serialize` throws NullPointerException when it renders the timestamp.
- Messages.Message.Deserialize: a null payload is not modelled. The payload is a byte sequence, while the source throws NullPointerException when it takes the bytes of a null String.
- A Dafny `char` is a Unicode scalar value, so a Java String holding an unpaired UTF-16 surrogate cannot be represented.
- JavaText.ParseInt: only the ASCII digits 0–9 are accepted. `Integer.parseInt` also accepts other Unicode decimal digits, which are not modelled.
- The static schema slot is shared by all threads in the source. The model has a single `SchemaCache` object and no concurrency.

## Findings

| source | as written | input that shows it | evidently intended | confidence | as-written member | corrected member |
|---|---|---|---|---|---|---|
| src/main/java/com/martincastroalvarez/hadoop/Message.java:147 | `serialize` turns the Avro bytes into a String with the default charset, and `deserialize` (line 161) turns that String back into bytes. The Kafka client's String serializer does the same with UTF-8. Under a UTF-8 charset, bytes that are not well-formed UTF-8 do not survive this round trip. | A timestamp "Sun Oct 11 12:00:00 UTC 2026" with a title and text of 64 letters each. The first long field's length varint is 0x80 0x01, a byte at or above 0x80 followed by one below it. | The payload reaches the decoder byte for byte, and `deserialize(serialize(m))` gives back m's title and text. | not executed | Messages.SixtyFourLettersDoNotSurvive (with Messages.ThroughString and Messages.StringStepAltersPayload) | Messages.CodecRoundTrip (the codec carries bytes, as in Messages.Message.Serialize and Messages.Message.Deserialize; proved through Messages.SerializeDeserialize) |

=== FILE: avro_binary.dfy ===
/**
 * The Avro binary encoding of the one record shape the producer sends: three
 * `string` fields written one after another in the order the schema declares them.
 * A `long` is zig-zag mapped to a natural number and written as a little-endian
 * base-128 varint; a `string` is its UTF-8 byte count as a `long` followed by the
 * bytes; a `record` is its fields' encodings concatenated, with nothing between.
 */
module AvroBinary {
  import opened Wrappers
  import Utf8
  type byte = Utf8.byte

  /** Zig-zag: 0, -1, 1, -2, 2, ... become 0, 1, 2, 3, 4, ... */
  function ZigZag(n: int): (v: nat)
    ensures UnZigZag(v) == n
  {
    if n >= 0 then 2 * n else -2 * n - 1
  }

  function UnZigZag(v: nat): int {
    if v % 2 == 0 then v / 2 else 0 - (v + 1) / 2
  }

  /** Seven bits per byte, least significant group first; the high bit says "more follows". */
  function Varint(v: nat): (r: seq<byte>)
    ensures |r| >= 1 && r[|r| - 1] < 0x80
    ensures forall i :: 0 <= i < |r| - 1 ==> r[i] >= 0x80
    decreases v
  {
    if v < 0x80 then [v as byte]
    else
      var q, m := v / 0x80, v % 0x80;
      assert q < v && 0 <= m < 0x80 by { SevenBitGroup(v); }
      var high := Varint(q);
      ContinuationPrefix((m + 0x80) as byte, high);
      [(m + 0x80) as byte] + high
  }

  /** The low seven bits and the rest of a number of eight bits or more. */
  lemma SevenBitGroup(v: nat)
    requires v >= 0x80
    ensures v / 0x80 < v && 0 <= v % 0x80 < 0x80
  {
  }

  /** A byte with its high bit set, put before a varint, keeps every byte but the last
      marked as followed by more. */
  lemma ContinuationPrefix(low: byte, high: seq<byte>)
    requires low >= 0x80
    requires |high| >= 1 && high[|high| - 1] < 0x80
    requires forall i :: 0 <= i < |high| - 1 ==> high[i] >= 0x80
    ensures var r := [low] + high; r[|r| - 1] < 0x80 && forall i :: 0 <= i < |r| - 1 ==> r[i] >= 0x80
  {
  }

  /** Reads a varint from the front of `b`: its value and the bytes after it. */
  function ReadVarint(b: seq<byte>): (r: Option<(nat, seq<byte>)>)
    ensures r.Some? ==> |r.value.1| < |b|
  {
    if |b| == 0 then None
    else if b[0] < 0x80 then Some((b[0] as nat, b[1..]))
    else
      match ReadVarint(b[1..])
      case None => None
      case Some((v, after)) => Some(((b[0] as int - 0x80) + 0x80 * v, after))
  }

  lemma {:induction false} ReadVarintAfterVarint(v: nat, rest: seq<byte>)
    ensures ReadVarint(Varint(v) + rest) == Some((v, rest))
    decreases v
  {
    if v >= 0x80 {
      ReadVarintAfterVarint(v / 0x80, rest);
      assert (Varint(v) + rest)[1..] == Varint(v / 0x80) + rest;
    } else {
      assert (Varint(v) + rest)[1..] == rest;
    }
  }

  /** An Avro `string`: the zig-zag varint of its UTF-8 length, then the UTF-8 bytes. */
  function EncodeString(s: string): (b: seq<byte>)
    ensures |b| > |Utf8.Encode(s)| && b[|b| - |Utf8.Encode(s)|..] == Utf8.Encode(s)
    ensures ReadVarint(b) == Some((ZigZag(|Utf8.Encode(s)|), Utf8.Encode(s)))
  {
    var u := Utf8.Encode(s);
    ReadVarintAfterVarint(ZigZag(|u|), u);
    Varint(ZigZag(|u|)) + u
  }

  /** Reads an Avro `string`; fails on a bad varint, a negative or overlong length,
      or bytes that are not UTF-8. */
  function ReadString(b: seq<byte>): (r: Option<(string, seq<byte>)>)
    ensures r.Some? ==> |r.value.1| < |b|
  {
    match ReadVarint(b)
    case None => None
    case Some((z, after)) =>
      var len := UnZigZag(z);
      if len < 0 || len > |after| then None
      else
        match Utf8.Decode(after[..len])
        case None => None
        case Some(s) => Some((s, after[len..]))
  }

  lemma ReadStringAfterEncode(s: string, rest: seq<byte>)
    ensures ReadString(EncodeString(s) + rest) == Some((s, rest))
  {
    var u := Utf8.Encode(s);
    var z := Varint(ZigZag(|u|));
    ReadVarintAfterVarint(ZigZag(|u|), u + rest);
    assert EncodeString(s) + rest == z + (u + rest);
    assert (u + rest)[..|u|] == u && (u + rest)[|u|..] == rest;
    Utf8.RoundTrip(s);
  }

  /** A sequence of `string` fields, back to back. */
  function EncodeValues(vals: seq<string>): seq<byte> {
    if vals == [] then [] else EncodeString(vals[0]) + EncodeValues(vals[1..])
  }

  /** Reads `n` strings one after another. */
  function ReadValues(n: nat, b: seq<byte>): (r: Option<(seq<string>, seq<byte>)>)
    ensures r.Some? ==> |r.value.0| == n && |r.value.1| <= |b|
  {
    if n == 0 then Some(([], b))
    else
      match ReadString(b)
      case None => None
      case Some((s, after)) =>
        match ReadValues(n - 1, after)
        case None => None
        case Some((vs, left)) => Some(([s] + vs, left))
  }

  /** Reading back as many strings as were written gives them back, whatever follows. */
  lemma {:induction false} ReadValuesAfterEncode(vals: seq<string>, rest: seq<byte>)
    ensures ReadValues(|vals|, EncodeValues(vals) + rest) == Some((vals, rest))
  {
    if vals == [] {
      assert EncodeValues(vals) + rest == rest;
    } else {
      var tail := EncodeValues(vals[1..]) + rest;
      ReadValuesAfterEncode(vals[1..], rest);
      ReadStringAfterEncode(vals[0], tail);
      EncodeValuesCons(vals, rest);
      ReadValuesStep(|vals|, EncodeValues(vals) + rest, vals[0], tail, vals[1..], rest);
      assert [vals[0]] + vals[1..] == vals;
    }
  }

  lemma EncodeValuesCons(vals: seq<string>, rest: seq<byte>)
    requires vals != []
    ensures EncodeValues(vals) + rest == EncodeString(vals[0]) + (EncodeValues(vals[1..]) + rest)
  {
  }

  /** One step of reading: the first string, then the others as already read. */
  lemma ReadValuesStep(n: nat, b: seq<byte>, s: string, after: seq<byte>, vs: seq<string>, left: seq<byte>)
    requires n > 0 && ReadString(b) == Some((s, after))
    requires ReadValues(n - 1, after) == Some((vs, left))
    ensures ReadValues(n, b) == Some(([s] + vs, left))
  {
  }

  /** The three fields of the message schema. */
  datatype FieldName = TimestampField | TextField | TitleField

  /** A record of the message schema (Avro's GenericRecord for it). */
  datatype Record = Record(timestamp: string, text: string, title: string)

  function Get(r: Record, f: FieldName): string {
    match f
    case TimestampField => r.timestamp
    case TextField => r.text
    case TitleField => r.title
  }

  /** `GenericRecord.put`: sets one field and leaves the others as they were. */
  function Put(r: Record, f: FieldName, v: string): (r': Record)
    ensures Get(r', f) == v
    ensures forall g :: g != f ==> Get(r', g) == Get(r, g)
  {
    match f
    case TimestampField => r.(timestamp := v)
    case TextField => r.(text := v)
    case TitleField => r.(title := v)
  }

  predicate Distinct(order: seq<FieldName>) {
    forall i, j :: 0 <= i < j < |order| ==> order[i] != order[j]
  }

  /** A schema for the message record: the three fields, each once, in some order. */
  predicate ValidOrder(order: seq<FieldName>) {
    |order| == 3 && Distinct(order)
  }

  /** A valid order names every field. */
  lemma ValidOrderCovers(order: seq<FieldName>, f: FieldName)
    requires ValidOrder(order)
    ensures f in order
  {
    assert order == [order[0], order[1], order[2]];
  }

  /** The field values in the order the schema writes them. */
  function Project(order: seq<FieldName>, r: Record): (vals: seq<string>)
    ensures |vals| == |order|
    ensures forall i :: 0 <= i < |order| ==> vals[i] == Get(r, order[i])
  {
    seq(|order|, i requires 0 <= i < |order| => Get(r, order[i]))
  }

  /** Binds values read in schema order to their fields, one `put` after another. */
  function Assemble(order: seq<FieldName>, vals: seq<string>, acc: Record): (result: Record)
    requires |vals| == |order|
    ensures forall g :: g !in order ==> Get(result, g) == Get(acc, g)
  {
    if order == [] then acc else Assemble(order[1..], vals[1..], Put(acc, order[0], vals[0]))
  }

  lemma {:induction false} AssembleGet(order: seq<FieldName>, vals: seq<string>, acc: Record)
    requires |vals| == |order| && Distinct(order)
    ensures forall i :: 0 <= i < |order| ==> Get(Assemble(order, vals, acc), order[i]) == vals[i]
  {
    if order != [] {
      var acc' := Put(acc, order[0], vals[0]);
      AssembleGet(order[1..], vals[1..], acc');
      var res := Assemble(order, vals, acc);
      forall i | 0 <= i < |order| ensures Get(res, order[i]) == vals[i] {
        if i > 0 {
          assert order[i] == order[1..][i - 1];
        } else {
          assert order[0] !in order[1..];
        }
      }
    }
  }

  /** The record the decoder starts from before any field is read. */
  const Unset := Record("", "", "")

  /** The record's binary form under a schema field order. Decoding it under the same
      order gives the record back, whatever bytes follow it. */
  function EncodeRecord(order: seq<FieldName>, r: Record): (b: seq<byte>)
    ensures ValidOrder(order) ==> forall rest :: ReadRecord(order, b + rest) == Some((r, rest))
  {
    ProjectedRoundTrip(order, r);
    EncodeValues(Project(order, r))
  }

  /** Reads one record under a schema field order; bytes after it are left unread. */
  function ReadRecord(order: seq<FieldName>, b: seq<byte>): (r: Option<(Record, seq<byte>)>)
    ensures r.Some? ==> |r.value.1| <= |b|
  {
    match ReadValues(|order|, b)
    case None => None
    case Some((vals, left)) => Some((Assemble(order, vals, Unset), left))
  }

  /** The round trip of EncodeRecord, on the values it writes: they are read back in schema
      order and bound to the fields they came from. */
  lemma ProjectedRoundTrip(order: seq<FieldName>, r: Record)
    ensures ValidOrder(order) ==>
              forall rest :: ReadRecord(order, EncodeValues(Project(order, r)) + rest) == Some((r, rest))
  {
    if ValidOrder(order) {
      var vals := Project(order, r);
      AssembleGet(order, vals, Unset);
      var res := Assemble(order, vals, Unset);
      forall g ensures Get(res, g) == Get(r, g) {
        ValidOrderCovers(order, g);
        var i :| 0 <= i < |order| && order[i] == g;
      }
      assert Get(res, TimestampField) == Get(r, TimestampField);
      assert Get(res, TextField) == Get(r, TextField);
      assert Get(res, TitleField) == Get(r, TitleField);
      forall rest ensures ReadRecord(order, EncodeValues(vals) + rest) == Some((r, rest)) {
        ReadValuesAfterEncode(vals, rest);
      }
    }
  }

  /** Decoding under a different field order than the writer's does not fail: all three
      fields are strings, so each value lands in the field the reader expects at its place. */
  lemma MismatchedOrderDecodes(writer: seq<FieldName>, reader: seq<FieldName>, r: Record)
    requires ValidOrder(writer) && ValidOrder(reader)
    ensures ReadRecord(reader, EncodeRecord(writer, r)).Some?
    ensures forall i :: 0 <= i < 3 ==>
      Get(ReadRecord(reader, EncodeRecord(writer, r)).value.0, reader[i]) == Get(r, writer[i])
  {
    var vals := Project(writer, r);
    ReadValuesAfterEncode(vals, []);
    assert EncodeValues(vals) + [] == EncodeValues(vals);
    AssembleGet(reader, vals, Unset);
  }

  /** Short strings of characters below U+0080. */
  predicate ShortAscii(s: string) {
    |s| < 64 && forall i :: 0 <= i < |s| ==> s[i] as int < 0x80
  }

  /** A short ASCII string's Avro form is itself well-formed UTF-8: its one length byte is ASCII. */
  lemma ShortAsciiEncoding(s: string)
    requires ShortAscii(s)
    ensures EncodeString(s) == Utf8.Encode([(2 * |s|) as char] + s)
  {
    Utf8.EncodeAscii(s);
    assert ([(2 * |s|) as char] + s)[1..] == s;
  }

  /** Numbers of eight to fourteen bits take two varint bytes: a continued one, then a last one. */
  lemma TwoByteVarint(z: nat)
    requires 0x80 <= z < 0x4000
    ensures |Varint(z)| == 2 && Varint(z)[0] >= 0x80 && Varint(z)[1] < 0x80
  {
    assert Varint(z) == [(z % 0x80 + 0x80) as byte] + Varint(z / 0x80);
  }

  /** When every field before the k-th is short ASCII and the k-th has between 64 and 8191
      UTF-8 bytes, the record's bytes are not well-formed UTF-8: the k-th length varint
      opens with a byte at or above 0x80 followed by one below it. */
  lemma {:induction false} LongFieldIsNotUtf8(vals: seq<string>, k: nat)
    requires k < |vals|
    requires forall i :: 0 <= i < k ==> ShortAscii(vals[i])
    requires 64 <= |Utf8.Encode(vals[k])| < 8192
    ensures !Utf8.WellFormed(EncodeValues(vals))
  {
    if k == 0 {
      LongFirstFieldIsNotUtf8(vals);
    } else {
      assert forall i :: 0 <= i < k - 1 ==> vals[1..][i] == vals[i + 1];
      LongFieldIsNotUtf8(vals[1..], k - 1);
      ShortAsciiEncoding(vals[0]);
      assert EncodeValues(vals) == EncodeString(vals[0]) + EncodeValues(vals[1..]);
      Utf8.DecodeAfterEncode([(2 * |vals[0]|) as char] + vals[0], EncodeValues(vals[1..]));
    }
  }

  /** The case where the long field comes first: its length varint opens the record. */
  lemma LongFirstFieldIsNotUtf8(vals: seq<string>)
    requires |vals| > 0 && 64 <= |Utf8.Encode(vals[0])| < 8192
    ensures !Utf8.WellFormed(EncodeValues(vals))
  {
    var b := EncodeValues(vals);
    var z := ZigZag(|Utf8.Encode(vals[0])|);
    var v := Varint(z);
    TwoByteVarint(z);
    var e := EncodeString(vals[0]);
    assert e == v + Utf8.Encode(vals[0]);
    assert e[0] == v[0] && e[1] == v[1];
    assert b == e + EncodeValues(vals[1..]);
    assert b[0] == e[0] && b[1] == e[1];
    Utf8.HighThenLowIsMalformed(b);
  }
}

=== FILE: errors.dfy ===
/**
 * The exceptions the producer and the message codec can raise, as one tagged type.
 * The five checked exception classes of the repository only store a message string;
 * they become the first five variants. The remaining variants are the unchecked
 * exceptions that the code lets escape.
 */
module Errors {

  datatype Error =
    | MessageErr(message: string)        // exceptions/MessageException
    | HostErr(message: string)           // exceptions/HostException
    | PortErr(message: string)           // exceptions/PortException
    | TopicErr(message: string)          // exceptions/TopicException
    | SerializationErr(message: string)  // exceptions/SerializationException
    | NumberFormat(input: string)        // java.lang.NumberFormatException from Integer.parseInt
    | NullHandle                         // NullPointerException: the broker handle used before connect
    | ClosedHandle                       // IllegalStateException: the broker handle used after close
}

=== FILE: java_text.dfy ===
/**
 * The two pieces of java.lang behaviour the validators rely on: the blank test
 * `s.trim().isEmpty()` and `Integer.parseInt(s)` in radix 10.
 */
module JavaText {
  import opened Wrappers
  import opened Errors

  /** Every character is at most U+0020: the characters `String.trim` strips. */
  predicate AllAtMostSpace(s: string) {
    forall i :: 0 <= i < |s| ==> s[i] <= ' '
  }

  /** Where `trim` starts: the index of the first character above U+0020, or the length
      when there is none. */
  function TrimStart(s: string): (st: nat)
    ensures st <= |s| && AllAtMostSpace(s[..st])
    ensures st < |s| ==> s[st] > ' '
  {
    if s == [] || s[0] > ' ' then 0
    else
      var k := TrimStart(s[1..]);
      assert s[..k + 1] == [s[0]] + s[1..][..k];
      k + 1
  }

  /** Where `trim` ends: counting down from the length, stops after the last character
      above U+0020, and never goes below `st`. */
  function TrimEnd(s: string, st: nat): (end: nat)
    requires st <= |s|
    ensures st <= end <= |s| && AllAtMostSpace(s[end..])
    ensures st < end ==> s[end - 1] > ' '
    decreases |s|
  {
    if |s| == st || s[|s| - 1] > ' ' then |s|
    else
      var end := TrimEnd(s[..|s| - 1], st);
      assert s[end..] == s[..|s| - 1][end..] + [s[|s| - 1]];
      end
  }

  /** `String.trim()`: the slice between the first and the last character above U+0020;
      everything before and after it is at most U+0020. */
  function Trim(s: string): (r: string)
    ensures r == [] || (r[0] > ' ' && r[|r| - 1] > ' ')
    ensures exists i, j :: 0 <= i <= j <= |s| && r == s[i..j] && AllAtMostSpace(s[..i]) && AllAtMostSpace(s[j..])
  {
    var st := TrimStart(s);
    s[st..TrimEnd(s, st)]
  }

  /** `s.trim().isEmpty()`, the test every setter of the repository applies. It holds
      exactly when no character is above U+0020 (it is not Unicode white space that
      counts, but the code point). */
  function IsBlank(s: string): (blank: bool)
    ensures blank <==> AllAtMostSpace(s)
  {
    var st := TrimStart(s);
    assert st == |s| ==> s[..st] == s;
    Trim(s) == []
  }

  /** How `+` renders a possibly-null string in Java: `null` becomes "null". */
  function Show(s: Option<string>): (r: string)
    ensures s.None? ==> r == "null"
    ensures s.Some? ==> r == s.value
  {
    match s
    case None => "null"
    case Some(v) => v
  }

  const IntMin: int := -0x8000_0000
  const IntMax: int := 0x7FFF_FFFF

  predicate IsDigit(c: char) {
    '0' <= c <= '9'
  }

  predicate AllDigits(s: string) {
    forall i :: 0 <= i < |s| ==> IsDigit(s[i])
  }

  /** The value of a run of decimal digits, most significant first. */
  function DigitsValue(ds: string): nat
    requires AllDigits(ds)
  {
    if ds == [] then 0 else DigitsValue(ds[..|ds| - 1]) * 10 + (ds[|ds| - 1] as int - '0' as int)
  }

  /** The characters after an optional leading sign. */
  function Unsigned(s: string): string {
    if |s| > 0 && (s[0] == '-' || s[0] == '+') then s[1..] else s
  }

  /** An optional `-` or `+` followed by at least one decimal digit. */
  predicate IsDecimal(s: string) {
    Unsigned(s) != [] && AllDigits(Unsigned(s))
  }

  /** The mathematical value of a decimal numeral, with no range limit. */
  function DecimalValue(s: string): int
    requires IsDecimal(s)
  {
    var v: int := DigitsValue(Unsigned(s));
    if s[0] == '-' then 0 - v else v
  }

  /** `Integer.parseInt(s)`: a decimal numeral whose value fits in 32 bits;
      anything else raises NumberFormatException. */
  function ParseInt(s: string): (r: Result<int, Error>)
    ensures r.Success? <==> IsDecimal(s) && IntMin <= DecimalValue(s) <= IntMax
    ensures r.Success? ==> r.value == DecimalValue(s)
    ensures r.Failure? ==> r.error == NumberFormat(s)
  {
    if !IsDecimal(s) then Failure(NumberFormat(s))
    else if IntMin <= DecimalValue(s) <= IntMax then Success(DecimalValue(s))
    else Failure(NumberFormat(s))
  }

  function DigitChar(d: nat): char
    requires d < 10
  {
    ('0' as int + d) as char
  }

  /** The shortest decimal rendering of a natural number (no sign, no leading zero). */
  function ShowNat(n: nat): string
    decreases n
  {
    if n < 10 then [DigitChar(n)] else ShowNat(n / 10) + [DigitChar(n % 10)]
  }

  /** `Integer.toString(n)`: the partner of ParseInt. */
  function ShowInt(n: int): string {
    if n < 0 then "-" + ShowNat(-n) else ShowNat(n)
  }

  lemma {:induction false} ShowNatDigits(n: nat)
    ensures AllDigits(ShowNat(n)) && ShowNat(n) != []
    ensures ShowNat(n)[0] != '-' && ShowNat(n)[0] != '+'
    ensures DigitsValue(ShowNat(n)) == n
    decreases n
  {
    if n >= 10 {
      ShowNatDigits(n / 10);
      var s := ShowNat(n);
      assert s[..|s| - 1] == ShowNat(n / 10);
    }
  }

  /** Every 32-bit integer survives rendering and parsing back. */
  lemma ParseShowInt(n: int)
    requires IntMin <= n <= IntMax
    ensures ParseInt(ShowInt(n)) == Success(n)
  {
    var s := ShowInt(n);
    if n < 0 {
      ShowNatDigits(-n);
      assert s[0] == '-' && Unsigned(s) == ShowNat(-n);
    } else {
      ShowNatDigits(n);
      assert Unsigned(s) == ShowNat(n);
    }
    assert IsDecimal(s) && DecimalValue(s) == n;
  }
}

=== FILE: messages.dfy ===
/**
 * The message record, its validating setters, the lazily loaded schema and the
 * codec that writes and reads the record in Avro's binary form.
 */
module Messages {
  import opened Wrappers
  import opened Errors
  import JavaText
  import Utf8
  import opened AvroBinary

  /** A java.util.Date: milliseconds since the epoch. */
  datatype Instant = Instant(millis: int)

  /** The pattern the text timestamp setter hands to SimpleDateFormat, and then parses. */
  const TimestampPattern: string := "EEE MMM dd HH:mm:ss zzz yyyy"

  /** The parsed `message.avsc`: the order in which it declares the three fields. */
  datatype Schema = Schema(order: seq<FieldName>)

  /** What looking up and parsing `message.avsc` comes to: the schema, or the class
      loader finds no resource, or its URI is malformed, or reading it fails. */
  datatype SchemaSource = Parsed(schema: Schema) | ResourceMissing | UriMalformed | FileUnreadable

  /** One load attempt, with the message each failure carries. */
  function Load(source: SchemaSource): (r: Result<Schema, Error>)
    ensures r.Success? <==> source.Parsed?
    ensures r.Success? ==> r.value == source.schema
    ensures r.Failure? ==> r.error.SerializationErr?
    ensures source.ResourceMissing? ==> r.error.message == "AVRO file not found!"
    ensures source.UriMalformed? ==> r.error.message == "Malformed AVRO URI!"
    ensures source.FileUnreadable? ==> r.error.message == "AVRO schema file not found!"
  {
    match source
    case Parsed(s) => Success(s)
    case ResourceMissing => Failure(SerializationErr("AVRO file not found!"))
    case UriMalformed => Failure(SerializationErr("Malformed AVRO URI!"))
    case FileUnreadable => Failure(SerializationErr("AVRO schema file not found!"))
  }

  /** The bundled resource describes the three-field record, whatever else happens to it. */
  predicate SourceIsMessageSchema(source: SchemaSource) {
    source.Parsed? ==> ValidOrder(source.schema.order)
  }

  /** The process-wide schema slot (the static field `Message.schema`). */
  class SchemaCache {
    var schema: Option<Schema>

    ghost predicate Valid()
      reads this
    {
      schema.Some? ==> ValidOrder(schema.value.order)
    }

    constructor()
      ensures schema == None && Valid()
    {
      schema := None;
    }

    /** `getSchema`: loads on the first call that finds the slot empty; once a load has
        succeeded, every later call returns that schema and never looks at the source again.
        A failed load leaves the slot empty. */
    method GetSchema(source: SchemaSource) returns (r: Result<Schema, Error>)
      requires Valid() && SourceIsMessageSchema(source)
      modifies this
      ensures Valid()
      ensures old(schema).Some? ==> r == Success(old(schema).value) && schema == old(schema)
      ensures old(schema).None? ==> r == Load(source)
      ensures r.Success? ==> schema == Some(r.value)
      ensures r.Failure? ==> schema == None
    {
      if schema.None? {
        r := Load(source);
        if r.Success? {
          schema := Some(r.value);
        }
      } else {
        r := Success(schema.value);
      }
    }
  }

  /** The text timestamp setter's result: it parses the pattern constant, not its argument;
      when that parse fails it keeps the current value. */
  function ParsedTimestamp(current: Instant, parse: string -> Option<Instant>): (t: Instant)
    ensures parse(TimestampPattern).Some? ==> t == parse(TimestampPattern).value
    ensures parse(TimestampPattern).None? ==> t == current
  {
    match parse(TimestampPattern)
    case Some(d) => d
    case None => current
  }

  const SetTitleError: string := "Message title string cannot be null or empty: "
  const SetTextError: string := "Message string cannot be null or empty: "
  const DecodeError: string := "Failed to deserialize object: "
  const InvalidDecodedError: string := "Failed to deserialize Avro message: "

  /** Reads a payload as `deserialize` does once it has the schema: decode one record,
      then pass title and text through the setters' test; any failure is a
      SerializationException. Bytes after the record are ignored. */
  function DecodeMessage(order: seq<FieldName>, payload: seq<byte>): (r: Result<Record, Error>)
    ensures r.Success? <==> (ReadRecord(order, payload).Some?
                             && !JavaText.AllAtMostSpace(ReadRecord(order, payload).value.0.title)
                             && !JavaText.AllAtMostSpace(ReadRecord(order, payload).value.0.text))
    ensures r.Success? ==> r.value == ReadRecord(order, payload).value.0
    ensures ReadRecord(order, payload).None? ==> r == Failure(SerializationErr(DecodeError))
    ensures ReadRecord(order, payload).Some? && r.Failure? ==> r == Failure(SerializationErr(InvalidDecodedError))
  {
    match ReadRecord(order, payload)
    case None => Failure(SerializationErr(DecodeError))
    case Some((rec, _)) =>
      if JavaText.IsBlank(rec.title) || JavaText.IsBlank(rec.text) then
        Failure(SerializationErr(InvalidDecodedError))
      else
        Success(rec)
  }

  /** A record whose title and text would pass the setters survives serialize then deserialize. */
  lemma SerializeDeserialize(order: seq<FieldName>, rec: Record)
    requires ValidOrder(order)
    requires !JavaText.AllAtMostSpace(rec.title) && !JavaText.AllAtMostSpace(rec.text)
    ensures DecodeMessage(order, EncodeRecord(order, rec)) == Success(rec)
  {
    assert EncodeRecord(order, rec) + [] == EncodeRecord(order, rec);
  }

  /** Serialize does not validate, so a blank title or text (a fresh Message's "") is written,
      and reading it back always fails. */
  lemma BlankFieldFailsDeserialize(order: seq<FieldName>, rec: Record)
    requires ValidOrder(order)
    requires JavaText.AllAtMostSpace(rec.title) || JavaText.AllAtMostSpace(rec.text)
    ensures DecodeMessage(order, EncodeRecord(order, rec)) == Failure(SerializationErr(InvalidDecodedError))
  {
    assert EncodeRecord(order, rec) + [] == EncodeRecord(order, rec);
  }

  /** What the source's String step does to a payload under a UTF-8 default charset:
      `ByteArrayOutputStream.toString()` makes some String of the bytes (`toText` stands for
      that decoder, whatever it does with bytes that are not UTF-8), then
      `String.getBytes()` encodes that String as UTF-8. */
  function ThroughString(payload: seq<byte>, toText: seq<byte> -> string): (b: seq<byte>)
    ensures Utf8.WellFormed(b)
  {
    Utf8.EncodedIsWellFormed(toText(payload));
    Utf8.Encode(toText(payload))
  }

  /** With title and text of 64 to 8191 UTF-8 bytes and a short ASCII timestamp, the payload is
      not well-formed UTF-8 under any field order, so the String step cannot give the decoder
      the bytes the encoder wrote. */
  lemma StringStepAltersPayload(order: seq<FieldName>, rec: Record, toText: seq<byte> -> string)
    requires ValidOrder(order)
    requires 64 <= |Utf8.Encode(rec.title)| < 8192 && 64 <= |Utf8.Encode(rec.text)| < 8192
    requires ShortAscii(rec.timestamp)
    ensures ThroughString(EncodeRecord(order, rec), toText) != EncodeRecord(order, rec)
  {
    var vals := Project(order, rec);
    var k := if order[0] == TimestampField then 1 else 0;
    assert order[k] != TimestampField;
    assert forall i :: 0 <= i < k ==> order[i] == TimestampField;
    LongFieldIsNotUtf8(vals, k);
  }

  /** The smallest such input: title and text of 64 letters, and a timestamp rendered the
      way Date.toString renders it. */
  lemma SixtyFourLettersDoNotSurvive(order: seq<FieldName>, toText: seq<byte> -> string)
    requires ValidOrder(order)
    ensures var rec := Record("Sun Oct 11 12:00:00 UTC 2026", seq(64, _ => 'a'), seq(64, _ => 'a'));
      ThroughString(EncodeRecord(order, rec), toText) != EncodeRecord(order, rec)
  {
    var letters: string := seq(64, _ => 'a');
    Utf8.EncodeAscii(letters);
    StringStepAltersPayload(order, Record("Sun Oct 11 12:00:00 UTC 2026", letters, letters), toText);
  }

  /** One event: title, text and timestamp (the class `Message`). */
  class Message {
    var timestamp: Instant
    var text: string
    var title: string

    /** `new Message()`: empty title and text, stamped with the current time `now`. */
    constructor(now: Instant)
      ensures timestamp == now && text == "" && title == ""
    {
      timestamp := now;
      text := "";
      title := "";
    }

    /** `toString`: the title between fixed delimiters. */
    function ToString(): (r: string)
      reads this
      ensures |r| == |title| + 11 && r[..10] == "<Message: " && r[10..|r| - 1] == title
      ensures r[|r| - 1] == '>'
    {
      "<Message: " + title + ">"
    }

    /** `setTitle`: refuses null and any string with no character above U+0020, keeping the
        old title; otherwise stores the argument as given, untrimmed. */
    method SetTitle(t: Option<string>) returns (r: Outcome<Error>)
      modifies this`title
      ensures r.Fail? <==> t.None? || JavaText.AllAtMostSpace(t.value)
      ensures r.Fail? ==> r == Fail(MessageErr(SetTitleError + JavaText.Show(t))) && title == old(title)
      ensures r.Pass? ==> title == t.value
    {
      if t.None? || JavaText.IsBlank(t.value) {
        return Fail(MessageErr(SetTitleError + JavaText.Show(t)));
      }
      title := t.value;
      return Pass;
    }

    /** `setText`: the same rule as `setTitle`, for the text. */
    method SetText(t: Option<string>) returns (r: Outcome<Error>)
      modifies this`text
      ensures r.Fail? <==> t.None? || JavaText.AllAtMostSpace(t.value)
      ensures r.Fail? ==> r == Fail(MessageErr(SetTextError + JavaText.Show(t))) && text == old(text)
      ensures r.Pass? ==> text == t.value
    {
      if t.None? || JavaText.IsBlank(t.value) {
        return Fail(MessageErr(SetTextError + JavaText.Show(t)));
      }
      text := t.value;
      return Pass;
    }

    /** `setTimestamp(Date)`: stores the date. */
    method SetTimestamp(d: Instant)
      modifies this`timestamp
      ensures timestamp == d
    {
      timestamp := d;
    }

    /** `setTimestamp(String)`: the argument is only logged. The pattern constant itself is
        parsed (`parse` stands for SimpleDateFormat.parse with that pattern); on success
        that date is stored, on a parse failure nothing changes and nothing is raised. */
    method SetTimestampText(s: string, parse: string -> Option<Instant>)
      modifies this`timestamp
      ensures timestamp == ParsedTimestamp(old(timestamp), parse)
    {
      var parsed := parse(TimestampPattern);
      if parsed.Some? {
        timestamp := parsed.value;
      }
    }

    /** The record `serialize` builds: the timestamp's `toString` (`render`), the text and
        the title, each under its own key. */
    function WireRecord(render: Instant -> string): (rec: Record)
      reads this
      ensures Get(rec, TimestampField) == render(timestamp)
      ensures Get(rec, TextField) == text && Get(rec, TitleField) == title
    {
      Record(render(timestamp), text, title)
    }

    /** `serialize`: gets the schema (which may fail to load), then writes the record in
        binary form in the schema's field order. Title and text are not checked again. */
    method Serialize(cache: SchemaCache, source: SchemaSource, render: Instant -> string)
      returns (r: Result<seq<byte>, Error>)
      requires cache.Valid() && SourceIsMessageSchema(source)
      modifies cache
      ensures cache.Valid()
      ensures r.Failure? <==> old(cache.schema).None? && !source.Parsed?
      ensures r.Failure? ==> r.error == Load(source).error && cache.schema == None
      ensures r.Success? ==>
                cache.schema.Some? && r.value == EncodeRecord(cache.schema.value.order, WireRecord(render))
      ensures old(cache.schema).Some? ==> cache.schema == old(cache.schema)
      ensures old(cache.schema).None? && source.Parsed? ==> cache.schema == Some(source.schema)
    {
      var s := cache.GetSchema(source);
      if s.Failure? {
        return Failure(s.error);
      }
      return Success(EncodeRecord(s.value.order, WireRecord(render)));
    }

    /** `deserialize`: gets the schema, decodes one record, then builds a new Message
        through `setTitle`, `setText` and the text timestamp setter. A decoding failure or
        a refused title or text becomes a SerializationException. */
    static method Deserialize(cache: SchemaCache, source: SchemaSource, payload: seq<byte>,
                              now: Instant, parse: string -> Option<Instant>)
      returns (r: Result<Message, Error>)
      requires cache.Valid() && SourceIsMessageSchema(source)
      modifies cache
      ensures cache.Valid()
      ensures old(cache.schema).None? && !source.Parsed? ==> r == Failure(Load(source).error)
      ensures cache.schema.Some? ==>
        var d := DecodeMessage(cache.schema.value.order, payload);
        (r.Success? <==> d.Success?) && (d.Failure? ==> r == Failure(d.error))
      ensures old(cache.schema).Some? ==> cache.schema == old(cache.schema)
      ensures old(cache.schema).None? && source.Parsed? ==> cache.schema == Some(source.schema)
      ensures r.Success? ==>
                fresh(r.value) && cache.schema.Some?
                && var d := DecodeMessage(cache.schema.value.order, payload);
                   r.value.title == d.value.title && r.value.text == d.value.text
                   && r.value.timestamp == ParsedTimestamp(now, parse)
    {
      var s := cache.GetSchema(source);
      if s.Failure? {
        return Failure(s.error);
      }
      var read := ReadRecord(s.value.order, payload);
      if read.None? {
        return Failure(SerializationErr(DecodeError));
      }
      r := FromRecord(read.value.0, now, parse);
    }

    /** The second half of `deserialize`: a new Message through `setTitle`, `setText` and
        the text timestamp setter; a refused title or text becomes a SerializationException. */
    static method FromRecord(rec: Record, now: Instant, parse: string -> Option<Instant>)
      returns (r: Result<Message, Error>)
      ensures r.Success? <==> !JavaText.AllAtMostSpace(rec.title) && !JavaText.AllAtMostSpace(rec.text)
      ensures r.Failure? ==> r.error == SerializationErr(InvalidDecodedError)
      ensures r.Success? ==>
                fresh(r.value) && r.value.title == rec.title && r.value.text == rec.text
                && r.value.timestamp == ParsedTimestamp(now, parse)
    {
      var m := new Message(now);
      var e := m.SetTitle(Some(rec.title));
      if e.Fail? {
        return Failure(SerializationErr(InvalidDecodedError));
      }
      e := m.SetText(Some(rec.text));
      if e.Fail? {
        return Failure(SerializationErr(InvalidDecodedError));
      }
      m.SetTimestampText(rec.timestamp, parse);
      return Success(m);
    }
  }

  /** A Message whose title and text went through the setters comes back from the codec with
      the same title and text; its timestamp comes back as the text setter leaves it. */
  method CodecRoundTrip(m: Message, cache: SchemaCache, source: SchemaSource,
                        render: Instant -> string, now: Instant, parse: string -> Option<Instant>)
    returns (r: Result<Message, Error>)
    requires cache.Valid() && SourceIsMessageSchema(source)
    requires !JavaText.AllAtMostSpace(m.title) && !JavaText.AllAtMostSpace(m.text)
    modifies cache
    ensures old(cache.schema).Some? || source.Parsed? ==>
      r.Success? && r.value.title == m.title && r.value.text == m.text
      && r.value.timestamp == ParsedTimestamp(now, parse)
  {
    var bytes := m.Serialize(cache, source, render);
    if bytes.Failure? {
      return Failure(bytes.error);
    }
    var order := cache.schema.value.order;
    var rec := m.WireRecord(render);
    SerializeDeserialize(order, rec);
    assert DecodeMessage(order, bytes.value) == Success(rec);
    r := Message.Deserialize(cache, source, bytes.value, now, parse);
    assert cache.schema.value.order == order;
  }
}

=== FILE: producer.dfy ===
/**
 * The producer session: validated host, port and topic, a broker-client handle
 * acquired by `connect`, one publish per `send`, and `disconnect`, which flushes
 * and then closes. The broker client itself (KafkaProducer) is outside the model;
 * the handle records the calls the session makes on it.
 */
module Producers {
  import opened Wrappers
  import opened Errors
  import JavaText
  import Utf8
  import AvroBinary
  import opened Messages

  type byte = Utf8.byte

  /** `ProducerRecord`: a topic, an optional key and the payload. */
  datatype ProducerRecord = ProducerRecord(topic: string, key: Option<string>, value: seq<byte>)

  /** A call the broker client accepted. */
  datatype HandleCall = Sent(record: ProducerRecord) | Flushed | Closed

  /** The broker client as the session sees it: the bootstrap address it was built with
      and, in order, the calls made on it. */
  datatype Handle = Handle(bootstrap: string, calls: seq<HandleCall>)

  predicate IsClosed(calls: seq<HandleCall>) {
    Closed in calls
  }

  /** The records handed to the broker client, in the order they were sent. */
  function Published(calls: seq<HandleCall>): (rs: seq<ProducerRecord>)
    ensures |rs| <= |calls|
  {
    if calls == [] then []
    else (if calls[0].Sent? then [calls[0].record] else []) + Published(calls[1..])
  }

  /** The handle discipline: nothing is sent after a close, and every record sent before a
      close was followed by a flush before that close. */
  predicate Disciplined(calls: seq<HandleCall>) {
    && (forall i, j :: 0 <= i < j < |calls| && calls[i].Closed? ==> !calls[j].Sent?)
    && (forall i, j :: 0 <= i < j < |calls| && calls[i].Sent? && calls[j].Closed? ==>
          exists k :: i < k < j && calls[k].Flushed?)
  }

  /** A send on an open handle keeps the discipline and publishes exactly that record. */
  lemma SendKeepsDiscipline(calls: seq<HandleCall>, rec: ProducerRecord)
    requires Disciplined(calls) && !IsClosed(calls)
    ensures Disciplined(calls + [Sent(rec)])
    ensures Published(calls + [Sent(rec)]) == Published(calls) + [rec]
  {
    PublishedAppend(calls, [Sent(rec)]);
  }

  /** Flush then close keeps the discipline, and publishes nothing. */
  lemma DisconnectKeepsDiscipline(calls: seq<HandleCall>)
    requires Disciplined(calls)
    ensures Disciplined(calls + [Flushed, Closed])
    ensures IsClosed(calls + [Flushed, Closed])
    ensures Published(calls + [Flushed, Closed]) == Published(calls)
  {
    var c := calls + [Flushed, Closed];
    var n := |calls|;
    assert c[n] == Flushed && c[n + 1] == Closed;
    forall i, j | 0 <= i < j < |c| && c[i].Sent? && c[j].Closed?
      ensures exists k :: i < k < j && c[k].Flushed?
    {
      assert i < n;
      if j < n {
        var k :| i < k < j && calls[k].Flushed?;
        assert c[k] == calls[k];
      } else {
        assert c[n].Flushed?;
      }
    }
    PublishedAppend(calls, [Flushed, Closed]);
  }

  lemma {:induction false} PublishedAppend(a: seq<HandleCall>, b: seq<HandleCall>)
    ensures Published(a + b) == Published(a) + Published(b)
  {
    if a == [] {
      assert a + b == b;
    } else {
      var head := if a[0].Sent? then [a[0].record] else [];
      assert (a + b)[0] == a[0] && (a + b)[1..] == a[1..] + b;
      assert Published(a) == head + Published(a[1..]);
      assert Published(a + b) == head + Published(a[1..] + b);
      PublishedAppend(a[1..], b);
      assert head + (Published(a[1..]) + Published(b)) == (head + Published(a[1..])) + Published(b);
    }
  }

  /** A session that sent one record and then disconnected published exactly that record. */
  lemma PublishedOneSession(rec: ProducerRecord)
    ensures Published([Sent(rec), Flushed, Closed]) == [rec]
  {
    assert [Sent(rec), Flushed, Closed][1..] == [Flushed, Closed];
    assert [Flushed, Closed][1..] == [Closed];
    assert [Closed][1..] == [];
  }

  /** The session's state, which the source keeps implicitly in its nullable handle field. */
  datatype Session = NoHandle | Open | Shut

  const HostError: string := "Host string cannot be null or empty."
  const TopicError: string := "Topic string cannot be null or empty."
  const PortBlankError: string := "Port number cannot be null or empty."
  const PortLowError: string := "The port can not be empty."

  /** The lowest port `setPort` accepts. */
  const MinPort: int := 1024

  /** `setPort`'s checks in order: null or blank, then `Integer.parseInt` (whose
      NumberFormatException escapes unchecked), then the lower bound. */
  function PortCheck(p: Option<string>): (r: Outcome<Error>)
    ensures r.Pass? <==> p.Some? && JavaText.ParseInt(p.value).Success? && JavaText.ParseInt(p.value).value >= MinPort
    ensures r.Fail? && (p.None? || JavaText.AllAtMostSpace(p.value)) ==> r.error == PortErr(PortBlankError)
    ensures r.Fail? && p.Some? && !JavaText.AllAtMostSpace(p.value) ==>
      r.error == (if JavaText.ParseInt(p.value).Failure? then NumberFormat(p.value) else PortErr(PortLowError))
  {
    if p.None? || JavaText.IsBlank(p.value) then
      if p.Some? then
        NumeralIsNotBlank(p.value);
        Fail(PortErr(PortBlankError))
      else Fail(PortErr(PortBlankError))
    else
      match JavaText.ParseInt(p.value)
      case Failure(e) => Fail(e)
      case Success(n) => if n < MinPort then Fail(PortErr(PortLowError)) else Pass
  }

  /** Anything `Integer.parseInt` accepts has a digit, so it is never blank. */
  lemma NumeralIsNotBlank(s: string)
    ensures JavaText.ParseInt(s).Success? ==> !JavaText.AllAtMostSpace(s)
  {
    if JavaText.ParseInt(s).Success? {
      var u := JavaText.Unsigned(s);
      assert JavaText.IsDigit(u[0]);
      if u != s {
        assert u[0] == s[1];
      }
    }
  }

  /** For every 32-bit integer written in decimal, `setPort` accepts it exactly when it is
      at least 1024. */
  lemma PortOfNumber(n: int)
    requires JavaText.IntMin <= n <= JavaText.IntMax
    ensures PortCheck(Some(JavaText.ShowInt(n))).Pass? <==> n >= MinPort
  {
    JavaText.ParseShowInt(n);
  }

  /** "80" parses, and is refused as too low. */
  lemma PortEightyRefused()
    ensures PortCheck(Some("80")) == Fail(PortErr(PortLowError))
  {
    JavaText.ParseShowInt(80);
    assert JavaText.ShowNat(8) == "8";
    assert JavaText.ShowInt(80) == "80";
    NumeralIsNotBlank("80");
  }

  /** The session (the class `Producer`). */
  class Producer {
    var host: string
    var port: string
    var topic: string
    var handle: Option<Handle>

    ghost predicate Valid()
      reads this
    {
      handle.Some? ==> Disciplined(handle.value.calls)
    }

    function State(): (s: Session)
      reads this
      ensures s == NoHandle <==> handle.None?
      ensures s == Shut <==> handle.Some? && IsClosed(handle.value.calls)
    {
      if handle.None? then NoHandle
      else if IsClosed(handle.value.calls) then Shut
      else Open
    }

    /** `new Producer()`: all three settings empty, no handle. */
    constructor()
      ensures host == "" && port == "" && topic == "" && handle == None && Valid()
    {
      host, port, topic, handle := "", "", "", None;
    }

    /** `toString`: the host between fixed delimiters. */
    function ToString(): (r: string)
      reads this
      ensures |r| == |host| + 12 && r[..11] == "<Producer: " && r[11..|r| - 1] == host
      ensures r[|r| - 1] == '>'
    {
      "<Producer: " + host + ">"
    }

    /** `setTopic`: refuses null and any string with no character above U+0020, keeping
        the old topic; otherwise stores the argument as given. */
    method SetTopic(t: Option<string>) returns (r: Outcome<Error>)
      modifies this`topic
      ensures r.Fail? <==> t.None? || JavaText.AllAtMostSpace(t.value)
      ensures r.Fail? ==> r == Fail(TopicErr(TopicError)) && topic == old(topic)
      ensures r.Pass? ==> topic == t.value
    {
      if t.None? || JavaText.IsBlank(t.value) {
        return Fail(TopicErr(TopicError));
      }
      topic := t.value;
      return Pass;
    }

    /** `setHost`: the same rule as `setTopic`, for the host. */
    method SetHost(h: Option<string>) returns (r: Outcome<Error>)
      modifies this`host
      ensures r.Fail? <==> h.None? || JavaText.AllAtMostSpace(h.value)
      ensures r.Fail? ==> r == Fail(HostErr(HostError)) && host == old(host)
      ensures r.Pass? ==> host == h.value
    {
      if h.None? || JavaText.IsBlank(h.value) {
        return Fail(HostErr(HostError));
      }
      host := h.value;
      return Pass;
    }

    /** `setPort`: on success stores the string it was given, not the parsed number;
        on any failure the port is unchanged. */
    method SetPort(p: Option<string>) returns (r: Outcome<Error>)
      modifies this`port
      ensures r == PortCheck(p)
      ensures r.Pass? ==> port == p.value
      ensures r.Fail? ==> port == old(port)
    {
      if p.None? || JavaText.IsBlank(p.value) {
        return Fail(PortErr(PortBlankError));
      }
      var n := JavaText.ParseInt(p.value);
      if n.Failure? {
        return Fail(n.error);
      }
      if n.value < MinPort {
        return Fail(PortErr(PortLowError));
      }
      port := p.value;
      return Pass;
    }

    /** `connect`: a new handle addressed to `host:port`, whatever the settings are (with
        none set, the address is ":"). A handle already held is dropped without a close. */
    method Connect()
      modifies this`handle
      ensures handle == Some(Handle(host + ":" + port, []))
      ensures Valid() && State() == Open
    {
      handle := Some(Handle(host + ":" + port, []));
    }

    /** `send`: serializes first, so a serialization failure touches no handle; then hands
        one record with no key to the handle. Before `connect` that is a null dereference;
        after `disconnect` the closed client refuses it. */
    method Send(m: Message, cache: SchemaCache, source: SchemaSource, render: Instant -> string)
      returns (r: Outcome<Error>)
      requires Valid() && cache.Valid() && SourceIsMessageSchema(source)
      modifies this`handle, cache
      ensures Valid() && cache.Valid()
      ensures old(cache.schema).Some? ==> cache.schema == old(cache.schema)
      ensures old(cache.schema).None? && source.Parsed? ==> cache.schema == Some(source.schema)
      ensures old(cache.schema).None? && !source.Parsed? ==>
                r == Fail(Load(source).error) && handle == old(handle)
      ensures old(cache.schema).Some? || source.Parsed? ==>
                cache.schema.Some?
                && var payload := AvroBinary.EncodeRecord(cache.schema.value.order, m.WireRecord(render));
                   if old(handle).None? then r == Fail(NullHandle) && handle == None
                   else if IsClosed(old(handle).value.calls) then r == Fail(ClosedHandle) && handle == old(handle)
                   else r == Pass && handle == Some(old(handle).value.(calls :=
                          old(handle).value.calls + [Sent(ProducerRecord(topic, None, payload))]))
    {
      var payload := m.Serialize(cache, source, render);
      if payload.Failure? {
        return Fail(payload.error);
      }
      if handle.None? {
        return Fail(NullHandle);
      }
      var h := handle.value;
      if IsClosed(h.calls) {
        return Fail(ClosedHandle);
      }
      SendKeepsDiscipline(h.calls, ProducerRecord(topic, None, payload.value));
      handle := Some(h.(calls := h.calls + [Sent(ProducerRecord(topic, None, payload.value))]));
      return Pass;
    }

    /** `disconnect`: flush, then close. Before `connect` that is a null dereference. */
    method Disconnect() returns (r: Outcome<Error>)
      requires Valid()
      modifies this`handle
      ensures Valid()
      ensures old(handle).None? ==> r == Fail(NullHandle) && handle == None
      ensures old(handle).Some? ==>
                r == Pass && State() == Shut
                && handle == Some(old(handle).value.(calls := old(handle).value.calls + [Flushed, Closed]))
    {
      if handle.None? {
        return Fail(NullHandle);
      }
      var h := handle.value;
      DisconnectKeepsDiscipline(h.calls);
      handle := Some(h.(calls := h.calls + [Flushed, Closed]));
      return Pass;
    }
  }

  /** What `main` ends with when every setter passes; otherwise the first setter failure,
      in the order main calls them: host, topic, port, then the message text and title. */
  function SetupOutcome(host: Option<string>, topic: Option<string>, port: Option<string>,
                        text: Option<string>, title: Option<string>): (r: Outcome<Error>)
    ensures r.Pass? ==> host.Some? && topic.Some? && port.Some? && text.Some? && title.Some?
    ensures r.Pass? <==> SetupProducer(host, topic, port).Pass? && SetupMessage(text, title).Pass?
    ensures SetupProducer(host, topic, port).Fail? ==> r == SetupProducer(host, topic, port)
  {
    var producer := SetupProducer(host, topic, port);
    if producer.Fail? then producer else SetupMessage(text, title)
  }

  /** The producer half of SetupOutcome: host, topic, then port. */
  function SetupProducer(host: Option<string>, topic: Option<string>, port: Option<string>): (r: Outcome<Error>)
    ensures r.Pass? ==> host.Some? && topic.Some? && port.Some?
    ensures r.Pass? <==> (host.Some? && !JavaText.AllAtMostSpace(host.value)
                          && topic.Some? && !JavaText.AllAtMostSpace(topic.value)
                          && PortCheck(port).Pass?)
  {
    if host.None? || JavaText.AllAtMostSpace(host.value) then Fail(HostErr(HostError))
    else if topic.None? || JavaText.AllAtMostSpace(topic.value) then Fail(TopicErr(TopicError))
    else PortCheck(port)
  }

  /** The message half of SetupOutcome: text first, then title. */
  function SetupMessage(text: Option<string>, title: Option<string>): (r: Outcome<Error>)
    ensures r.Pass? ==> text.Some? && title.Some?
    ensures r.Pass? <==> (text.Some? && !JavaText.AllAtMostSpace(text.value)
                          && title.Some? && !JavaText.AllAtMostSpace(title.value))
  {
    if text.None? || JavaText.AllAtMostSpace(text.value) then Fail(MessageErr(SetTextError + JavaText.Show(text)))
    else if title.None? || JavaText.AllAtMostSpace(title.value) then Fail(MessageErr(SetTitleError + JavaText.Show(title)))
    else Pass
  }

  /** The producer setters of `main`, in its order (host, topic, port), stopping at the
      first failure. */
  method ConfigureProducer(host: Option<string>, topic: Option<string>, port: Option<string>)
    returns (r: Outcome<Error>, p: Producer)
    ensures fresh(p) && p.Valid() && p.handle == None
    ensures r == SetupProducer(host, topic, port)
    ensures r.Pass? ==> host == Some(p.host) && topic == Some(p.topic) && port == Some(p.port)
  {
    p := new Producer();
    r := p.SetHost(host);
    if r.Fail? { return; }
    r := p.SetTopic(topic);
    if r.Fail? { return; }
    r := p.SetPort(port);
  }

  /** The message part of `main`: a new Message, then its text and title setters. */
  method ConfigureMessage(text: Option<string>, title: Option<string>, now: Instant)
    returns (r: Outcome<Error>, m: Message)
    ensures fresh(m) && r == SetupMessage(text, title)
    ensures r.Pass? ==> text == Some(m.text) && title == Some(m.title) && m.timestamp == now
  {
    m := new Message(now);
    r := m.SetText(text);
    if r.Fail? { return; }
    r := m.SetTitle(title);
  }

  /** `main`, with the system properties host, topic, port, message and title as arguments:
      configure, connect, send, and disconnect whether or not the send succeeded. A setter
      failure ends the run before any connection is made. */
  method Run(host: Option<string>, topic: Option<string>, port: Option<string>,
             text: Option<string>, title: Option<string>, now: Instant,
             cache: SchemaCache, source: SchemaSource, render: Instant -> string)
    returns (r: Outcome<Error>, p: Producer)
    requires cache.Valid() && SourceIsMessageSchema(source)
    modifies cache
    ensures fresh(p) && p.Valid() && cache.Valid()
    ensures old(cache.schema).Some? ==> cache.schema == old(cache.schema)
    ensures SetupOutcome(host, topic, port, text, title).Pass? && old(cache.schema).None? && source.Parsed? ==> cache.schema == Some(source.schema)
    ensures SetupOutcome(host, topic, port, text, title).Fail? ==>
              r == SetupOutcome(host, topic, port, text, title) && p.handle == None
    ensures SetupOutcome(host, topic, port, text, title).Pass? ==>
              p.handle.Some? && p.handle.value.bootstrap == host.value + ":" + port.value
    ensures SetupOutcome(host, topic, port, text, title).Pass? ==>
              (r.Fail? <==> old(cache.schema).None? && !source.Parsed?)
    ensures SetupOutcome(host, topic, port, text, title).Pass? && r.Fail? ==>
              old(cache.schema).None? && Load(source).Failure? && r == Fail(Load(source).error)
              && p.handle.value.calls == [Flushed, Closed]
    ensures SetupOutcome(host, topic, port, text, title).Pass? && r.Pass? ==>
              cache.schema.Some? && p.handle.value.calls ==
                [Sent(ProducerRecord(topic.value, None, AvroBinary.EncodeRecord(cache.schema.value.order,
                        AvroBinary.Record(render(now), text.value, title.value)))),
                 Flushed, Closed]
  {
    r, p := ConfigureProducer(host, topic, port);
    if r.Fail? { return; }
    var m;
    r, m := ConfigureMessage(text, title, now);
    if r.Fail? { return; }
    r := Publish(p, m, cache, source, render);
  }

  /** The try/finally of `main`: connect, send the message, and disconnect whether or not
      the send succeeded. The only failure left is a schema that does not load. */
  method Publish(p: Producer, m: Message, cache: SchemaCache, source: SchemaSource,
                 render: Instant -> string)
    returns (r: Outcome<Error>)
    requires p.Valid() && cache.Valid() && SourceIsMessageSchema(source)
    modifies p`handle, cache
    ensures p.Valid() && cache.Valid() && p.State() == Shut
    ensures old(cache.schema).Some? ==> cache.schema == old(cache.schema)
    ensures old(cache.schema).None? && source.Parsed? ==> cache.schema == Some(source.schema)
    ensures p.handle.Some? && p.handle.value.bootstrap == p.host + ":" + p.port
    ensures r.Fail? <==> old(cache.schema).None? && !source.Parsed?
    ensures r.Fail? ==>
              old(cache.schema).None? && Load(source).Failure? && r == Fail(Load(source).error)
              && p.handle.value.calls == [Flushed, Closed]
    ensures r.Pass? ==>
              cache.schema.Some? && p.handle.value.calls ==
                [Sent(ProducerRecord(p.topic, None, AvroBinary.EncodeRecord(cache.schema.value.order,
                        m.WireRecord(render)))),
                 Flushed, Closed]
  {
    p.Connect();
    r := p.Send(m, cache, source, render);
    var closed := p.Disconnect();
  }

  /** The producer settings of the broker1:9092 scenario pass the producer setters of
      `main`. */
  lemma ScenarioSettingsAccepted()
    ensures SetupProducer(Some("broker1"), Some("events"), Some("9092")).Pass?
  {
    assert JavaText.ShowNat(9) == "9";
    assert JavaText.ShowNat(90) == "90";
    assert JavaText.ShowNat(909) == "909";
    assert JavaText.ShowInt(9092) == "9092";
    PortOfNumber(9092);
    assert "broker1"[0] == 'b' && "events"[0] == 'e';
  }

  /** A run of `main` whose settings all pass the setters, with a schema that loads: the
      session is closed, exactly one record was published, with no key, on the configured
      topic, and it reads back as the message's record. */
  method AcceptedRun(host: string, topic: string, port: string, text: string, title: string,
                     now: Instant, cache: SchemaCache, source: SchemaSource,
                     render: Instant -> string)
    returns (p: Producer)
    requires SetupProducer(Some(host), Some(topic), Some(port)).Pass?
    requires !JavaText.AllAtMostSpace(text) && !JavaText.AllAtMostSpace(title)
    requires cache.Valid() && SourceIsMessageSchema(source)
    requires cache.schema.Some? || source.Parsed?
    modifies cache
    ensures p.State() == Shut && p.handle.value.bootstrap == host + ":" + port
    ensures |Published(p.handle.value.calls)| == 1
    ensures var rec := Published(p.handle.value.calls)[0];
            rec.topic == topic && rec.key == None && cache.schema.Some?
            && AvroBinary.ReadRecord(cache.schema.value.order, rec.value)
               == Some((AvroBinary.Record(render(now), text, title), []))
  {
    assert SetupOutcome(Some(host), Some(topic), Some(port), Some(text), Some(title)) == Pass;
    var r;
    r, p := Run(Some(host), Some(topic), Some(port), Some(text), Some(title), now, cache, source, render);
    assert r.Pass?;
    var calls := p.handle.value.calls;
    assert calls == [calls[0], Flushed, Closed] && calls[0].Sent?;
    PublishedOneSession(calls[0].record);
    assert calls[2] == Closed;
    var order := cache.schema.value.order;
    var rec := AvroBinary.Record(render(now), text, title);
    assert AvroBinary.EncodeRecord(order, rec) + [] == AvroBinary.EncodeRecord(order, rec);
  }

  /** The scenario of a session against broker1:9092 on topic "events" with a title and a
      text the setters accept: one record, with no key, carrying them. */
  method BrokerScenario(text: string, title: string, now: Instant, cache: SchemaCache,
                        source: SchemaSource, render: Instant -> string)
    returns (p: Producer)
    requires !JavaText.AllAtMostSpace(text) && !JavaText.AllAtMostSpace(title)
    requires cache.Valid() && SourceIsMessageSchema(source)
    requires cache.schema.Some? || source.Parsed?
    modifies cache
    ensures p.State() == Shut && p.handle.value.bootstrap == "broker1:9092"
    ensures |Published(p.handle.value.calls)| == 1
    ensures var rec := Published(p.handle.value.calls)[0];
            rec.topic == "events" && rec.key == None && cache.schema.Some?
            && AvroBinary.ReadRecord(cache.schema.value.order, rec.value)
               == Some((AvroBinary.Record(render(now), text, title), []))
  {
    ScenarioSettingsAccepted();
    p := AcceptedRun("broker1", "events", "9092", text, title, now, cache, source, render);
    assert "broker1" + ":" + "9092" == "broker1:9092";
  }
}

=== FILE: utf8.dfy ===
/**
 * UTF-8, the byte form Avro gives to a `string` (and the form Java's default
 * charset gives to a String since Java 18). A Dafny `char` is a Unicode scalar
 * value, so every string has exactly one encoding. The decoder is strict: it
 * accepts only shortest-form sequences and no surrogate code points.
 */
module Utf8 {
  import opened Wrappers

  newtype byte = x: int | 0 <= x < 256

  predicate IsContinuation(b: byte) {
    0x80 <= b < 0xC0
  }

  /** The one to four bytes that encode a scalar value. */
  function EncodeChar(c: char): (r: seq<byte>)
    ensures 1 <= |r| <= 4
    ensures |r| == 1 <==> c as int < 0x80
  {
    var n := c as int;
    if n < 0x80 then [n as byte]
    else if n < 0x800 then [(0xC0 + n / 0x40) as byte, (0x80 + n % 0x40) as byte]
    else if n < 0x1_0000 then
      [(0xE0 + n / 0x1000) as byte, (0x80 + n / 0x40 % 0x40) as byte, (0x80 + n % 0x40) as byte]
    else
      [(0xF0 + n / 0x4_0000) as byte, (0x80 + n / 0x1000 % 0x40) as byte,
       (0x80 + n / 0x40 % 0x40) as byte, (0x80 + n % 0x40) as byte]
  }

  function Encode(s: string): (r: seq<byte>)
    ensures |r| >= |s|
  {
    if s == [] then [] else EncodeChar(s[0]) + Encode(s[1..])
  }

  /** Reads one scalar value from the front of `b`; gives it with the number of bytes it took. */
  function DecodeChar(b: seq<byte>): (r: Option<(char, nat)>)
    ensures r.Some? ==> 1 <= r.value.1 <= |b|
  {
    if |b| == 0 then None
    else if b[0] < 0x80 then Some((b[0] as int as char, 1))
    else if 0xC2 <= b[0] < 0xE0 then
      if |b| < 2 || !IsContinuation(b[1]) then None
      else Some((((b[0] as int - 0xC0) * 0x40 + (b[1] as int - 0x80)) as char, 2))
    else if 0xE0 <= b[0] < 0xF0 then
      if |b| < 3 || !IsContinuation(b[1]) || !IsContinuation(b[2]) then None
      else
        var n := (b[0] as int - 0xE0) * 0x1000 + (b[1] as int - 0x80) * 0x40 + (b[2] as int - 0x80);
        if n < 0x800 || 0xD800 <= n < 0xE000 then None else Some((n as char, 3))
    else if 0xF0 <= b[0] < 0xF5 then
      if |b| < 4 || !IsContinuation(b[1]) || !IsContinuation(b[2]) || !IsContinuation(b[3]) then None
      else
        var n := (b[0] as int - 0xF0) * 0x4_0000 + (b[1] as int - 0x80) * 0x1000
          + (b[2] as int - 0x80) * 0x40 + (b[3] as int - 0x80);
        if n < 0x1_0000 || n >= 0x11_0000 then None else Some((n as char, 4))
    else None
  }

  /** The string `b` encodes, or None when `b` is not well-formed UTF-8. */
  function Decode(b: seq<byte>): (r: Option<string>)
    ensures r.Some? ==> |r.value| <= |b|
    decreases |b|
  {
    if b == [] then Some([])
    else match DecodeChar(b)
      case None => None
      case Some((c, k)) =>
        match Decode(b[k..])
        case None => None
        case Some(t) => Some([c] + t)
  }

  predicate WellFormed(b: seq<byte>) {
    Decode(b).Some?
  }

  /** Decoding the encoding of one character gives it back and consumes exactly its bytes. */
  lemma DecodeEncodeChar(c: char, rest: seq<byte>)
    ensures DecodeChar(EncodeChar(c) + rest) == Some((c, |EncodeChar(c)|))
  {
    var n := c as int;
    var b := EncodeChar(c) + rest;
    if n < 0x80 {
    } else if n < 0x800 {
      SixBitGroups(n);
      assert (b[0] as int - 0xC0) * 0x40 + (b[1] as int - 0x80) == n;
    } else if n < 0x1_0000 {
      SixBitGroups(n);
      assert (b[0] as int - 0xE0) * 0x1000 + (b[1] as int - 0x80) * 0x40 + (b[2] as int - 0x80) == n;
    } else {
      SixBitGroups(n);
      assert (b[0] as int - 0xF0) * 0x4_0000 + (b[1] as int - 0x80) * 0x1000
        + (b[2] as int - 0x80) * 0x40 + (b[3] as int - 0x80) == n;
    }
  }

  /** A code point is the sum of its six-bit groups, as the multi-byte forms split it. */
  lemma SixBitGroups(n: nat)
    ensures n == n / 0x40 * 0x40 + n % 0x40
    ensures n == n / 0x1000 * 0x1000 + n / 0x40 % 0x40 * 0x40 + n % 0x40
    ensures n == n / 0x4_0000 * 0x4_0000 + n / 0x1000 % 0x40 * 0x1000 + n / 0x40 % 0x40 * 0x40 + n % 0x40
  {
    var q1 := n / 0x40;
    var q2 := q1 / 0x40;
    var q3 := q2 / 0x40;
    assert n / 0x1000 == q2;
    assert n / 0x4_0000 == q3;
    assert q1 == q2 * 0x40 + q1 % 0x40;
    assert q2 == q3 * 0x40 + q2 % 0x40;
  }

  /** Decoding an encoded string followed by more bytes decodes the string and then the rest. */
  lemma {:induction false} DecodeAfterEncode(s: string, rest: seq<byte>)
    ensures Decode(Encode(s) + rest) ==
      match Decode(rest)
      case None => None
      case Some(t) => Some(s + t)
  {
    if s != [] {
      var e := EncodeChar(s[0]);
      var b := Encode(s) + rest;
      DecodeEncodeChar(s[0], Encode(s[1..]) + rest);
      assert b == e + (Encode(s[1..]) + rest);
      assert b[|e|..] == Encode(s[1..]) + rest;
      DecodeAfterEncode(s[1..], rest);
      DecodeStep(b, s[0], |e|);
      match Decode(rest)
      case None =>
      case Some(t) => ConsAppend(s, t);
    } else {
      assert Encode(s) + rest == rest;
      match Decode(rest)
      case None =>
      case Some(t) => assert s + t == t;
    }
  }

  /** Splitting off the first character of a non-empty string before appending. */
  lemma ConsAppend(s: string, t: string)
    requires s != []
    ensures s + t == [s[0]] + (s[1..] + t)
  {
  }

  /** A byte sequence is its prefix followed by its suffix. */
  lemma SplitAt(b: seq<byte>, k: nat)
    requires k <= |b|
    ensures b[..k] + b[k..] == b
  {
  }

  /** Encoding a string that starts with `c` writes `c`'s bytes, then the rest's. */
  lemma EncodeStep(c: char, t: string)
    ensures Encode([c] + t) == EncodeChar(c) + Encode(t)
  {
    assert ([c] + t)[1..] == t;
  }

  /** Decoding reads one character, then decodes what follows it. */
  lemma DecodeStep(b: seq<byte>, c: char, k: nat)
    requires DecodeChar(b) == Some((c, k))
    ensures Decode(b) ==
      match Decode(b[k..])
      case None => None
      case Some(t) => Some([c] + t)
  {
  }

  /** Every string survives encoding and decoding. */
  lemma RoundTrip(s: string)
    ensures Decode(Encode(s)) == Some(s)
  {
    DecodeAfterEncode(s, []);
    assert Encode(s) + [] == Encode(s);
    assert s + [] == s;
  }

  /** Division by 64 undoes a six-bit shift. */
  lemma SixBitSplit(q: nat, r: nat)
    requires r < 0x40
    ensures (q * 0x40 + r) / 0x40 == q && (q * 0x40 + r) % 0x40 == r
  {
  }

  /** The decoder accepts only shortest forms, so the bytes it reads are exactly the
      encoding of the character it gives. */
  lemma EncodeDecodedChar(b: seq<byte>)
    requires DecodeChar(b).Some?
    ensures EncodeChar(DecodeChar(b).value.0) == b[..DecodeChar(b).value.1]
  {
    if b[0] < 0x80 {
      assert b[..1] == [b[0]];
    } else if b[0] < 0xE0 {
      TwoByteForm(b[0], b[1]);
      assert b[..2] == [b[0], b[1]];
    } else if b[0] < 0xF0 {
      ThreeByteForm(b[0], b[1], b[2]);
      assert b[..3] == [b[0], b[1], b[2]];
    } else {
      FourByteForm(b[0], b[1], b[2], b[3]);
      assert b[..4] == [b[0], b[1], b[2], b[3]];
    }
  }

  lemma TwoByteForm(b0: byte, b1: byte)
    requires 0xC2 <= b0 < 0xE0 && IsContinuation(b1)
    ensures var n := (b0 as int - 0xC0) * 0x40 + (b1 as int - 0x80);
      0x80 <= n < 0x800 && EncodeChar(n as char) == [b0, b1]
  {
    SixBitSplit(b0 as int - 0xC0, b1 as int - 0x80);
  }

  lemma ThreeByteForm(b0: byte, b1: byte, b2: byte)
    requires 0xE0 <= b0 < 0xF0 && IsContinuation(b1) && IsContinuation(b2)
    ensures var n := (b0 as int - 0xE0) * 0x1000 + (b1 as int - 0x80) * 0x40 + (b2 as int - 0x80);
      0x800 <= n < 0x1_0000 && !(0xD800 <= n < 0xE000) ==> EncodeChar(n as char) == [b0, b1, b2]
  {
    var q1 := (b0 as int - 0xE0) * 0x40 + (b1 as int - 0x80);
    var n := q1 * 0x40 + (b2 as int - 0x80);
    SixBitSplit(q1, b2 as int - 0x80);
    SixBitSplit(b0 as int - 0xE0, b1 as int - 0x80);
    assert n / 0x1000 == n / 0x40 / 0x40;
  }

  lemma FourByteForm(b0: byte, b1: byte, b2: byte, b3: byte)
    requires 0xF0 <= b0 < 0xF5 && IsContinuation(b1) && IsContinuation(b2) && IsContinuation(b3)
    ensures var n := (b0 as int - 0xF0) * 0x4_0000 + (b1 as int - 0x80) * 0x1000
                     + (b2 as int - 0x80) * 0x40 + (b3 as int - 0x80);
      0x1_0000 <= n < 0x11_0000 ==> EncodeChar(n as char) == [b0, b1, b2, b3]
  {
    var c1, c2, c3 := b1 as int - 0x80, b2 as int - 0x80, b3 as int - 0x80;
    var q2 := (b0 as int - 0xF0) * 0x40 + c1;
    var n := q2 * 0x1000 + (c2 * 0x40 + c3);
    SixBitSplit(c2, c3);
    SixBitSplit(q2 * 0x40 + c2, c3);
    SixBitSplit(q2, c2);
    SixBitSplit(b0 as int - 0xF0, c1);
    TwelveBitSplit(q2, c2 * 0x40 + c3);
    EighteenBitSplit(b0 as int - 0xF0, c1 * 0x1000 + c2 * 0x40 + c3);
    assert n / 0x4_0000 == b0 as int - 0xF0 && n / 0x1000 % 0x40 == c1;
    assert n / 0x40 % 0x40 == c2 && n % 0x40 == c3;
  }

  /** Division by 4096 undoes a twelve-bit shift. */
  lemma TwelveBitSplit(q: nat, r: nat)
    requires r < 0x1000
    ensures (q * 0x1000 + r) / 0x1000 == q
  {
  }

  /** Division by 262144 undoes an eighteen-bit shift. */
  lemma EighteenBitSplit(q: nat, r: nat)
    requires r < 0x4_0000
    ensures (q * 0x4_0000 + r) / 0x4_0000 == q
  {
  }

  /** The other half of the round trip: whatever the decoder accepts is the encoding of
      the string it gives. */
  lemma {:induction false} EncodeAfterDecode(b: seq<byte>)
    requires WellFormed(b)
    ensures Encode(Decode(b).value) == b
    decreases |b|
  {
    if b != [] {
      var c, k := DecodeChar(b).value.0, DecodeChar(b).value.1;
      assert WellFormed(b[k..]) && Decode(b).value == [c] + Decode(b[k..]).value by {
        DecodeStep(b, c, k);
      }
      EncodeAfterDecode(b[k..]);
      EncodeStep(c, Decode(b[k..]).value);
      EncodeDecodedChar(b);
      SplitAt(b, k);
    }
  }

  /** A byte at or above 0x80 followed by one below it starts no well-formed sequence. */
  lemma HighThenLowIsMalformed(b: seq<byte>)
    requires |b| >= 2 && b[0] >= 0x80 && b[1] < 0x80
    ensures !WellFormed(b)
  {
    assert DecodeChar(b).None?;
  }

  /** Whatever String an encoder is given, what it produces is well-formed. */
  lemma EncodedIsWellFormed(s: string)
    ensures WellFormed(Encode(s))
  {
    RoundTrip(s);
  }

  /** Strings of characters below U+0080 encode one byte per character. */
  lemma {:induction false} EncodeAscii(s: string)
    requires forall i :: 0 <= i < |s| ==> s[i] as int < 0x80
    ensures |Encode(s)| == |s|
    ensures forall i :: 0 <= i < |s| ==> Encode(s)[i] as int == s[i] as int
  {
    if s != [] {
      EncodeAscii(s[1..]);
    }
  }
}

=== FILE: wrappers.dfy ===
/** Failure-carrying values used in place of Java's null references and exceptions. */
module Wrappers {

  /** A value that may be absent: `None` stands for a Java `null` reference. */
  datatype Option<+T> = None | Some(value: T)

  /** The outcome of a call that either returns a value or throws. */
  datatype Result<+T, +E> = Success(value: T) | Failure(error: E)

  /** The outcome of a `void` call that may throw. */
  datatype Outcome<+E> = Pass | Fail(error: E)
}
